=== FILE: README.md ===
# Server-Launcher core in Dafny

A model of the pure logic inside Server-Launcher, a small terminal dashboard
that starts "servers" (shell commands) and streams what they print. Three
parts of it are modelled as immutable datatypes and pure functions.

- **Launching** (`servers.rs`, module `Servers`). This covers choosing the
  shell for the host OS, building the `cd` clause and the full command
  string, and configuring the `Command` (program, argument vector, working
  directory, piped stdio). It also covers the dummy-or-real branch of
  `launch`, the `[name] …` / `[name] [stderr] …` lines the reader threads
  forward, and the five messages of the dummy runner. The host OS is an `Os`
  parameter. The spawn is a parameter `spawn: CommandSpec -> SpawnOutcome`.
  `Command::args` appends, so off Windows the argument vector holds four
  entries: `[-c, cd '<path>' && <line>, -c, <line>]`.
- **Dashboard state** (`tui.rs`, module `Tui`). This covers `wrap_index`,
  `App::new`, `App::on_tick`, and one iteration of `run_app` as a function
  from a state and a poll result to an `Outcome`: continue, quit, I/O
  failure, or panic. A panic happens on an empty server list, where
  `len() - 1` underflows and an index goes out of range. `Run` folds the
  iterations over a sequence of polls.
- **Persisted record** (`db.rs`, module `Db`). This covers `Server`, its
  default and builder setters, and the bound parameters of `insert_server`
  and `update_server_args`. It also covers rusqlite's column conversions and
  the row closure and filtering of `load_servers`. The SELECT returns six
  columns, but the closure reads `test_server` from a seventh. So every row
  conversion fails, and `load_servers` always returns an empty list
  (`Db.LoadServersAlwaysEmpty`). The args and autostart round trip is stated
  on the six stored columns.

Shared helpers live in `Strings`: Rust's `char::is_whitespace`,
`join(" ")`, `split_whitespace`, and the decimal rendering of integers.
`Results` holds `Option` and `Result`.

## Model

| member | source | states |
|---|---|---|
| Servers.SelectShell | Server-Launcher/src/servers.rs:26-32 | Windows gets (`cmd`, `/C`, `cd /d`); macOS and Linux get (`sh`, `-c`, `cd`); any other OS is an `Unsupported` error with message "Unsupported OS" |
| Servers.CdClause | Server-Launcher/src/servers.rs:36-40 | on Windows the clause is the prefix, a space, then the path verbatim; elsewhere the prefix, a space, the path between single quotes, with nothing else added |
| Servers.ProgramLine | Server-Launcher/src/servers.rs:42 | the executable, one space, then the space-joined args (also the line appended at servers.rs:58) |
| Servers.BuildCommand | Server-Launcher/src/servers.rs:26-61 | fails exactly on an unsupported OS. On Windows: program `cmd`, args `[/C, cd /d <path> && <exe> <args>]`, no working directory. On macOS/Linux: program `sh`, working directory = path, four args with the path single-quoted, then the appended `-c` / program-line pair. Stdout and stderr are always piped |
| Servers.AppendedPairRepeatsProgramLine | Server-Launcher/src/servers.rs:47-59 | off Windows the second `args` call appends rather than resets: the vector has four entries, the flag repeats, and the first command is the `cd` clause, `&&`, then the appended line |
| Servers.EmptyArgsTrailingSpace | Server-Launcher/src/servers.rs:42 | with no arguments the command line is the executable followed by a trailing space |
| Servers.ProgramLineTokens | Server-Launcher/src/servers.rs:42 | the command line splits on whitespace into exactly the executable and the arguments iff each of them is a non-empty, whitespace-free word |
| Servers.CdQuoteClosesAtEnd | Server-Launcher/src/servers.rs:36-40 | off Windows, the quote opened after `cd ` first closes at the clause's last character iff the path contains no single quote. A quote in the path ends the quoted word early, because nothing is escaped |
| Servers.DummyLaunch | Server-Launcher/src/servers.rs:113-128 | the dummy handle has no child, is running, and carries the server's name |
| Servers.Launch | Server-Launcher/src/servers.rs:20-110 | dummy: a child-less running handle, with the OS never consulted. Otherwise: an unsupported OS fails with `Unsupported`; a spawn failure becomes "Failed to spawn server <name>: <cause>" with the spawn's error kind; a spawn success gives a running handle owning that child. Every successful handle is running and named after the server |
| Servers.DummyLaunchIgnoresHost | Server-Launcher/src/servers.rs:22-24 | the dummy result is the same for every OS and every spawner |
| Servers.FormatLine | Server-Launcher/src/servers.rs:79 | a forwarded line starts with `[name] ` (plus `[stderr] ` for stderr), and removing that prefix gives the original line back |
| Servers.StreamTagAmbiguous | Server-Launcher/src/servers.rs:79-98 | a stdout line beginning `[stderr] ` is indistinguishable from the stderr line without it |
| Servers.CaptureStream | Server-Launcher/src/servers.rs:74-88 | a reader thread sends at most one message per read, and each message carries the stream's prefix |
| Servers.CaptureStreamOneToOne | Server-Launcher/src/servers.rs:93-107 | without read errors, lines map one-to-one and in order to formatted messages, and stripping the prefix recovers each line |
| Servers.CaptureSkipsReadErrors | Server-Launcher/src/servers.rs:83-86 | a read error is only reported on the diagnostic stream: the messages equal those of the same reads with the error removed |
| Servers.CaptureStreamAppend | Server-Launcher/src/servers.rs:76-87 | the reader loop handles reads independently: capturing `a + b` sends the messages of `a` followed by those of `b` |
| Servers.DummyMessageIsStdoutLine | Server-Launcher/src/servers.rs:120 | a dummy message is exactly a stdout line of the same server with text `Dummy server running... i` |
| Servers.DummyRun | Server-Launcher/src/servers.rs:119-120 | exactly five messages, in order, the i-th being `[name] Dummy server running... i`; the decimal after the prefix denotes its position |
| Tui.New | Server-Launcher/src/tui.rs:24-56 | counter 0, selection 0, three servers, a single "Log panel initialized." entry; the selection starts valid |
| Tui.OnTick | Server-Launcher/src/tui.rs:59-67 | counter rises by exactly one and the selection and servers are unchanged. With more than 20 entries exactly the oldest is dropped, otherwise the log is unchanged; a log of at most 21 ends at most 20 |
| Tui.WrapIndex | Server-Launcher/src/tui.rs:203-210 | the result lies in `0..=max_index` and is congruent to `index + delta` modulo `max_index + 1` (`rem_euclid`) |
| Tui.WrapIndexUnique | Server-Launcher/src/tui.rs:207-209 | any value in `0..=max_index` congruent to `index + delta` is the result |
| Tui.WrapIndexZeroDelta | Server-Launcher/src/tui.rs:207-208 | delta 0 leaves an in-range index unchanged |
| Tui.WrapIndexWrapsAround | Server-Launcher/src/tui.rs:208 | moving up from `max_index` gives 0, and moving down from 0 gives `max_index` |
| Tui.WrapIndexInverse | Server-Launcher/src/tui.rs:203-210 | moving by `delta` and then by `-delta` returns any in-range index to itself |
| Tui.Move | Server-Launcher/src/tui.rs:110-121 | it panics iff the list is empty; otherwise it continues, the selection becomes the wrapped index and stays valid, and exactly the key entry and "new index is N" are appended |
| Tui.Report | Server-Launcher/src/tui.rs:122-131 | it panics iff the selection is out of range; otherwise it continues and appends exactly the key entry and the selected server's name, changing nothing else |
| Tui.HandleKey | Server-Launcher/src/tui.rs:107-144 | a press of q/Q/Esc and nothing else quits. Down/j/J moves by -1 and logs "Select Down" and the new index; Up/k/K moves by +1 and logs "Select Up" and the new index. Enter, X and a repeated Enter log their two entries with the selected server's name. Every other key, every release and every other repeat leaves the app unchanged. Only Down/Up keys move the selection. A valid state never panics and stays valid; the counter is untouched |
| Tui.Step | Server-Launcher/src/tui.rs:101-150 | an iteration quits iff it read a q/Q/Esc press, and fails iff the poll or read failed, returning that poll's error. An idle poll or a non-key event only ticks; a key the handler continues on is handled and then ticked. From a valid state it never panics and otherwise continues, staying valid. A continuing iteration ticks the counter by one; the log loses at most its oldest entry and grows to at most max(old length + 1, 20) |
| Tui.Run | Server-Launcher/src/tui.rs:100-151 | no polls leave the app as it was; from a valid state no sequence of polls panics. A run keeps going iff it meets no failed poll and no quit press; an ending first poll decides the outcome. A quit comes from a quit press, a failure from a failed poll. A continuing run has counted one tick per poll and keeps the selection valid |
| Tui.RunSingle | Server-Launcher/src/tui.rs:100-151 | one loop iteration over one poll is exactly `Step` |
| Tui.RunAppend | Server-Launcher/src/tui.rs:100-151 | the loop runs its iterations in order: running over `p + q` continues from the state after `p`, unless `p` already ended the loop, in which case that outcome stands. With `RunSingle` and the empty case this pins `Run` to `Step` applied poll after poll |
| Tui.FirstEndingPollDecides | Server-Launcher/src/tui.rs:102-109 | from a valid state, the first failed poll or quit press decides the outcome, whatever polls follow it. It is handled from the state the earlier iterations reach, so an earlier error returns before a later `q` |
| Tui.NewNeverPanics | Server-Launcher/src/tui.rs:24-56 | the dashboard as started never panics, and its selection stays below 3 |
| Tui.DownThenUpRestoresSelection | Server-Launcher/src/tui.rs:110-121 | pressing Down and then Up returns the selection to where it was |
| Tui.IdleTicksRestoreBound | Server-Launcher/src/tui.rs:64-66 | enough idle iterations bring any log within 20 entries, keeping its newest entries as a suffix |
| Tui.KeyPressOutgrowsTrim | Server-Launcher/src/tui.rs:112-114 | a Down press on an over-full log grows it by one, since two entries are pushed and one trimmed, so the limit holds only while the keyboard is idle |
| Db.Default | Server-Launcher/src/db.rs:19-21 | id -1, empty name and args, path `~/Users/student/bin`, executable `script.sh`, both flags false |
| Db.WithId | Server-Launcher/src/db.rs:22-25 | sets the id; restoring the old id gives back the original record |
| Db.WithName | Server-Launcher/src/db.rs:26-29 | sets the name; every other field is unchanged |
| Db.WithPath | Server-Launcher/src/db.rs:30-33 | sets the path; every other field is unchanged |
| Db.WithExecutable | Server-Launcher/src/db.rs:34-37 | sets the executable; every other field is unchanged |
| Db.WithArgs | Server-Launcher/src/db.rs:38-41 | sets the args; every other field is unchanged |
| Db.WithAutostart | Server-Launcher/src/db.rs:42-45 | sets autostart; every other field is unchanged |
| Db.WithTestServer | Server-Launcher/src/db.rs:46-49 | sets the test flag; every other field is unchanged |
| Db.SettersLastWriteWins | Server-Launcher/src/db.rs:22-49 | applying a setter twice equals applying only the second |
| Db.BuilderReachesEveryServer | Server-Launcher/src/db.rs:19-49 | every record equals the default with each setter applied once |
| Db.GetI32 | Server-Launcher/src/db.rs:79 | succeeds iff the column exists and holds an INTEGER in the `i32` range, yielding that integer |
| Db.GetText | Server-Launcher/src/db.rs:80-84 | succeeds iff the column exists and holds TEXT, yielding it |
| Db.GetBool | Server-Launcher/src/db.rs:89 | succeeds iff the column exists and holds an INTEGER, yielding whether it is non-zero |
| Db.EncodeAutostart | Server-Launcher/src/db.rs:115 | `bool as i32` is 0 or 1 |
| Db.AutostartRoundTrip | Server-Launcher/src/db.rs:88 | decoding with `!= 0` gives back the stored flag |
| Db.DecodeAutostart | Server-Launcher/src/db.rs:88 | reading with `!= 0` inverts `bool as i32` on the values 0 and 1 |
| Db.DecodeArgs | Server-Launcher/src/db.rs:83-87 | loaded args are non-empty, whitespace-free words; laid end to end they are the stored text minus its whitespace |
| Db.ArgsRoundTrip | Server-Launcher/src/db.rs:85 | load-after-save returns the args iff every arg is a non-empty, whitespace-free word |
| Db.EncodeArgs | Server-Launcher/src/db.rs:98-107 | the stored text splits back into the args iff every arg is a non-empty, whitespace-free word |
| Db.DecodeArgsCollapsesWhitespace | Server-Launcher/src/db.rs:83-87 | leading, trailing and repeated spaces and tabs in the stored text only separate args: ` a \t b  ` loads as `[a, b]` |
| Db.ArgsReloadStable | Server-Launcher/src/db.rs:85-98 | saving loaded args and loading again gives the same args |
| Db.InsertParams | Server-Launcher/src/db.rs:106-119 | five parameters: name, path, executable, space-joined args, 0/1 autostart |
| Db.UpdateArgsParams | Server-Launcher/src/db.rs:97-104 | the args column is encoded as on insert, followed by the id |
| Db.InsertIgnoresIdAndTestFlag | Server-Launcher/src/db.rs:98-115 | insert ignores the record's id and test flag; insert and update write the same args text |
| Db.DecodeStoredFields | Server-Launcher/src/db.rs:78-88 | succeeds iff columns 0-5 each convert (i32, four TEXTs, i32); then id, name, path and executable are columns 0-3, args are column 4 split on whitespace, and autostart is column 5 being non-zero |
| Db.DecodeRow | Server-Launcher/src/db.rs:77-92 | converts iff the six stored columns convert and column 6 is an INTEGER. The record's six stored fields are those decoded columns and its test flag is column 6 being non-zero; a row of six or fewer columns never converts |
| Db.StoredFieldsRoundTrip | Server-Launcher/src/db.rs:79-88 | the selected row of an inserted record, carrying a database-assigned id in the `i32` range, decodes to that id and to the record's name, path, executable, args and autostart iff its args are words |
| Db.SelectedRowIdOutOfRange | Server-Launcher/src/db.rs:79 | an assigned id outside the `i32` range makes the stored columns fail to convert |
| Db.SelectedRowNeverDecodes | Server-Launcher/src/db.rs:76-89 | the six-column row of any inserted record fails to convert |
| Db.LoadServers | Server-Launcher/src/db.rs:94 | failed rows are dropped silently. There are never more servers than rows, and each comes from a row that converted; if every row converts, none is lost |
| Db.LoadServersSingle | Server-Launcher/src/db.rs:94 | one row yields its record exactly when it converts, and nothing otherwise |
| Db.LoadServersAppend | Server-Launcher/src/db.rs:94 | rows are filtered independently: loading `a + b` gives the records of `a` followed by those of `b`, so every converted row is kept, in order |
| Db.LoadServersAlwaysEmpty | Server-Launcher/src/db.rs:74-95 | with six-column rows, as the SELECT returns, the loaded list is always empty |
| Strings.SplitWhitespace | Server-Launcher/src/db.rs:85 | `split_whitespace` yields non-empty, whitespace-free tokens whose concatenation is the input without its whitespace |
| Strings.SplitWhitespaceWord | Server-Launcher/src/db.rs:85 | a lone word splits into itself |
| Strings.SplitWhitespaceSkipsLeading | Server-Launcher/src/db.rs:85 | leading whitespace produces no token |
| Strings.SplitWhitespaceWordThenSpace | Server-Launcher/src/db.rs:85 | a word ended by whitespace is one token, followed by the tokens of the rest; with the two rows above this fixes the split of every string as its maximal whitespace-free runs |
| Strings.IsWhitespace | Server-Launcher/src/db.rs:85 | the Unicode White_Space property used by `split_whitespace`; on ASCII it is exactly space, tab, line feed, vertical tab, form feed and carriage return, and it never holds of a digit or a single quote |
| Strings.JoinSpace | Server-Launcher/src/db.rs:98 | `join(" ")` of a non-empty list starts with the first word and is one character shorter than the words plus one separator each; the empty list joins to the empty string |
| Strings.JoinSpaceSingle | Server-Launcher/src/db.rs:107 | a one-element list joins to its element |
| Strings.JoinSpaceAppend | Server-Launcher/src/db.rs:107 | joining two non-empty lists is joining each and putting exactly one space between; with the row above this determines `join(" ")` |
| Strings.NatToDecimal | Server-Launcher/src/tui.rs:114 | the `{}` rendering of an unsigned integer (also at tui.rs:120 and servers.rs:120): non-empty, digits only, no leading zero |
| Strings.DecimalRoundTrip | Server-Launcher/src/servers.rs:120 | the rendered digits denote the number rendered |
| Strings.SplitJoin | Server-Launcher/src/db.rs:85-107 | splitting the space-join of a list of words gives the list back |
| Strings.JoinSplitRoundTripIff | Server-Launcher/src/db.rs:85-107 | the join/split round trip holds exactly for lists of words |

## Left out

- Process spawning, pipe handling, thread spawning, channel sends and the dummy runner's one-second sleeps are left out (`servers.rs:64-69`, `74-107`, `118-125`). They are operating-system work and concurrency. Only message content and order per stream are modelled. How stdout and stderr messages interleave is not modelled.
- Failed channel sends are left out (`servers.rs:79-81`, `98-100`, `120-121`). A std channel send fails only after the dashboard drops its receiver, and after that nothing is delivered. The model assumes the receiver stays alive.
- The `println!` and `eprintln!` diagnostics are left out (`servers.rs:43`, `60`, `80`, `84`, `99`, `103`). They are terminal output.
- The channel sender stored in `ServerHandle` is left out. It is a channel endpoint.
- `display_color` and its setter are left out (`db.rs:15`, `50-53`). The field is an opaque colour type from an external library.
- The database connection, schema creation and query execution are left out (`db.rs:56-72`, `75-77`, `99-102`, `108-117`). They are SQLite I/O. The row encodings and conversions are modelled instead.
- The REAL and BLOB storage classes are not modelled. Neither is the UTF-8 check on TEXT.
- Terminal setup and teardown, drawing, layout and the 50 ms poll timeout are left out (`tui.rs:70-98`, `102`, `105`, `153-200`). They are UI and terminal I/O. A poll outcome is a parameter.
- The fields of the literal servers in `App::new` other than their names are not modelled. The literals also omit two fields that `Server` declares.
- `main.rs` is not part of this model: it only wires things together and discards the loaded servers. `timer.py` is not part of this model either: it is a demo child script.
- Kill, exit events and reconciliation are not modelled because they do not exist: `servers.rs` has no kill operation, sends no exit notification when a stream closes, and never polls a child for exit. The dummy runner's message count is the fixed constant five (`servers.rs:119`).
- Escaping of single quotes inside the working directory is not modelled because the code does none (`servers.rs:39`); `Servers.CdQuoteClosesAtEnd` states the consequence.
- Tui.OnTick: the counter is unbounded. The source's `i32` counter would overflow after 2^31 ticks, which is over three years at the 50 ms poll.
- Tui.WrapIndex: the `usize`/`isize` casts and the `max_index + 1` overflow are not modelled. They only matter for indices of 2^63 or more, far beyond a three-entry list.

=== FILE: db.dfy ===
/** The persisted server record of `db.rs`: the `Server` struct, its default
    and consuming builder setters, and the row encodings used by
    `insert_server`, `update_server_args` and `load_servers`. */
module Db {
  import opened Results
  import opened Strings

  /** Rust's `i32`. */
  type Int32 = x: int | -0x8000_0000 <= x < 0x8000_0000

  /** SQLite's 64-bit INTEGER storage class. */
  type Int64 = x: int | -0x8000_0000_0000_0000 <= x < 0x8000_0000_0000_0000

  datatype Server = Server(
    id: Int32,
    name: string,
    path: string,
    executable: string,
    args: seq<string>,
    autostart: bool,
    testServer: bool)

  /** `Server::default()`. */
  function Default(): (s: Server)
    ensures s.id == -1 && s.name == "" && s.args == []
    ensures s.path == "~/Users/student/bin" && s.executable == "script.sh"
    ensures !s.autostart && !s.testServer
  {
    Server(-1, "", "~/Users/student/bin", "script.sh", [], false, false)
  }

  // The consuming builder setters. Each sets its own field; putting the old
  // value back yields the original record, so no other field moved.

  function WithId(s: Server, newId: Int32): (r: Server)
    ensures r.id == newId && r.(id := s.id) == s
  {
    s.(id := newId)
  }

  function WithName(s: Server, newName: string): (r: Server)
    ensures r.name == newName && r.(name := s.name) == s
  {
    s.(name := newName)
  }

  function WithPath(s: Server, newPath: string): (r: Server)
    ensures r.path == newPath && r.(path := s.path) == s
  {
    s.(path := newPath)
  }

  function WithExecutable(s: Server, newExe: string): (r: Server)
    ensures r.executable == newExe && r.(executable := s.executable) == s
  {
    s.(executable := newExe)
  }

  function WithArgs(s: Server, newArgs: seq<string>): (r: Server)
    ensures r.args == newArgs && r.(args := s.args) == s
  {
    s.(args := newArgs)
  }

  function WithAutostart(s: Server, newStart: bool): (r: Server)
    ensures r.autostart == newStart && r.(autostart := s.autostart) == s
  {
    s.(autostart := newStart)
  }

  function WithTestServer(s: Server, newTestServer: bool): (r: Server)
    ensures r.testServer == newTestServer && r.(testServer := s.testServer) == s
  {
    s.(testServer := newTestServer)
  }

  /** Setting a field twice keeps only the second value. */
  lemma SettersLastWriteWins(s: Server, i1: Int32, i2: Int32, n1: string, n2: string,
                             p1: string, p2: string, e1: string, e2: string,
                             a1: seq<string>, a2: seq<string>, b1: bool, b2: bool)
    ensures WithId(WithId(s, i1), i2) == WithId(s, i2)
    ensures WithName(WithName(s, n1), n2) == WithName(s, n2)
    ensures WithPath(WithPath(s, p1), p2) == WithPath(s, p2)
    ensures WithExecutable(WithExecutable(s, e1), e2) == WithExecutable(s, e2)
    ensures WithArgs(WithArgs(s, a1), a2) == WithArgs(s, a2)
    ensures WithAutostart(WithAutostart(s, b1), b2) == WithAutostart(s, b2)
    ensures WithTestServer(WithTestServer(s, b1), b2) == WithTestServer(s, b2)
  {
  }

  /** Every record is reachable from the default through the setters. */
  lemma BuilderReachesEveryServer(s: Server)
    ensures WithTestServer(WithAutostart(WithArgs(WithExecutable(WithPath(WithName(
              WithId(Default(), s.id), s.name), s.path), s.executable), s.args),
              s.autostart), s.testServer) == s
  {
  }

  // ---------------------------------------------------------------------
  // SQL values and rusqlite's column conversions

  datatype SqlValue = SqlInteger(i: Int64) | SqlText(t: string) | SqlNull

  type Row = seq<SqlValue>

  datatype SqlError =
    | InvalidColumnIndex(index: nat)
    | InvalidColumnType(index: nat)
    | IntegralValueOutOfRange(index: nat, value: int)

  /** `row.get::<_, i32>(index)`: an INTEGER in the `i32` range. */
  function GetI32(row: Row, index: nat): (r: Result<Int32, SqlError>)
    ensures r.Success? <==> index < |row| && row[index].SqlInteger?
                            && -0x8000_0000 <= row[index].i < 0x8000_0000
    ensures r.Success? ==> r.value == row[index].i
  {
    if index >= |row| then Failure(InvalidColumnIndex(index))
    else match row[index]
      case SqlInteger(v) =>
        if -0x8000_0000 <= v < 0x8000_0000 then Success(v)
        else Failure(IntegralValueOutOfRange(index, v))
      case _ => Failure(InvalidColumnType(index))
  }

  /** `row.get::<_, String>(index)`: a TEXT value. */
  function GetText(row: Row, index: nat): (r: Result<string, SqlError>)
    ensures r.Success? <==> index < |row| && row[index].SqlText?
    ensures r.Success? ==> r.value == row[index].t
  {
    if index >= |row| then Failure(InvalidColumnIndex(index))
    else match row[index]
      case SqlText(t) => Success(t)
      case _ => Failure(InvalidColumnType(index))
  }

  /** `row.get::<_, bool>(index)`: an INTEGER read as "non-zero". */
  function GetBool(row: Row, index: nat): (r: Result<bool, SqlError>)
    ensures r.Success? <==> index < |row| && row[index].SqlInteger?
    ensures r.Success? ==> (r.value <==> row[index].i != 0)
  {
    if index >= |row| then Failure(InvalidColumnIndex(index))
    else match row[index]
      case SqlInteger(v) => Success(v != 0)
      case _ => Failure(InvalidColumnType(index))
  }

  // ---------------------------------------------------------------------
  // Encodings

  /** `autostart as i32`. */
  function EncodeAutostart(b: bool): (v: Int32)
    ensures v == 0 || v == 1
  {
    if b then 1 else 0
  }

  /** The `!= 0` test applied to the stored autostart integer. */
  function DecodeAutostart(v: Int32): (b: bool)
    ensures v == 0 || v == 1 ==> EncodeAutostart(b) == v
  {
    v != 0
  }

  lemma AutostartRoundTrip(b: bool)
    ensures DecodeAutostart(EncodeAutostart(b)) == b
  {
  }

  /** The args column: `args.join(" ")`. */
  function EncodeArgs(args: seq<string>): (text: string)
    ensures SplitWhitespace(text) == args <==> AllWords(args)
  {
    JoinSplitRoundTripIff(args);
    JoinSpace(args)
  }

  /** The args column read back: `split_whitespace` into owned strings. */
  function DecodeArgs(text: string): (args: seq<string>)
    ensures AllWords(args)
    ensures Concat(args) == DropWhitespace(text)
  {
    SplitWhitespace(text)
  }

  /** Stored args survive a save/load exactly when each is a non-empty
      whitespace-free word. */
  lemma ArgsRoundTrip(args: seq<string>)
    ensures DecodeArgs(EncodeArgs(args)) == args <==> AllWords(args)
  {
    JoinSplitRoundTripIff(args);
  }

  /** Runs of spaces and tabs in stored text collapse into separators. */
  lemma DecodeArgsCollapsesWhitespace()
    ensures DecodeArgs(" a \t b  ") == ["a", "b"]
  {
    assert IsWhitespace(' ') && IsWhitespace('\t');
    assert " a \t b  " == [' '] + ("a" + [' '] + ("\t b  "));
    SplitWhitespaceSkipsLeading(' ', "a" + [' '] + "\t b  ");
    SplitWhitespaceWordThenSpace("a", ' ', "\t b  ");
    assert "\t b  " == ['\t'] + ([' '] + ("b" + [' '] + " "));
    SplitWhitespaceSkipsLeading('\t', [' '] + ("b" + [' '] + " "));
    SplitWhitespaceSkipsLeading(' ', "b" + [' '] + " ");
    SplitWhitespaceWordThenSpace("b", ' ', " ");
    assert " " == [' '] + "";
    SplitWhitespaceSkipsLeading(' ', "");
  }

  /** Loading what was saved after a load gives the same args again. */
  lemma ArgsReloadStable(text: string)
    ensures DecodeArgs(EncodeArgs(DecodeArgs(text))) == DecodeArgs(text)
  {
    SplitJoinSplitStable(text);
  }

  /** The five bound parameters of `insert_server`: name, path, executable,
      joined args and autostart. The record's own id and test flag are not
      written; the database assigns the id. */
  function InsertParams(s: Server): (row: Row)
    ensures |row| == 5
    ensures row[0] == SqlText(s.name) && row[1] == SqlText(s.path)
    ensures row[2] == SqlText(s.executable)
    ensures row[3] == SqlText(EncodeArgs(s.args))
    ensures row[4] == SqlInteger(EncodeAutostart(s.autostart))
  {
    [SqlText(s.name), SqlText(s.path), SqlText(s.executable),
     SqlText(EncodeArgs(s.args)), SqlInteger(EncodeAutostart(s.autostart))]
  }

  /** The two bound parameters of `update_server_args`: joined args, id. */
  function UpdateArgsParams(id: Int32, newArgs: seq<string>): (row: Row)
    ensures |row| == 2
    ensures row[0] == InsertParams(Default().(args := newArgs))[3]
    ensures row[1] == SqlInteger(id)
  {
    [SqlText(EncodeArgs(newArgs)), SqlInteger(id)]
  }

  /** Insert and update store the args column with the same encoding, and
      insertion ignores the record's id and test flag. */
  lemma InsertIgnoresIdAndTestFlag(s: Server, id: Int32, t: bool)
    ensures InsertParams(s.(id := id, testServer := t)) == InsertParams(s)
    ensures InsertParams(s)[3] == UpdateArgsParams(s.id, s.args)[0]
  {
  }

  /** The six columns the SELECT of `load_servers` returns, decoded. */
  datatype StoredFields = StoredFields(
    id: Int32,
    name: string,
    path: string,
    executable: string,
    args: seq<string>,
    autostart: bool)

  /** The row closure of `load_servers` up to the autostart column, in the
      order its `?` operators are evaluated. */
  function DecodeStoredFields(row: Row): (r: Result<StoredFields, SqlError>)
    ensures r.Success? <==>
              && GetI32(row, 0).Success? && GetText(row, 1).Success?
              && GetText(row, 2).Success? && GetText(row, 3).Success?
              && GetText(row, 4).Success? && GetI32(row, 5).Success?
    ensures r.Success? ==> |row| >= 6 && AllWords(r.value.args)
    ensures r.Success? ==>
              && r.value.id == row[0].i
              && r.value.name == row[1].t
              && r.value.path == row[2].t
              && r.value.executable == row[3].t
              && r.value.args == DecodeArgs(row[4].t)
              && (r.value.autostart <==> row[5].i != 0)
  {
    var id :- GetI32(row, 0);
    var name :- GetText(row, 1);
    var path :- GetText(row, 2);
    var executable :- GetText(row, 3);
    var argsText :- GetText(row, 4);
    var autostart :- GetI32(row, 5);
    Success(StoredFields(id, name, path, executable, DecodeArgs(argsText),
                         DecodeAutostart(autostart)))
  }

  /** The full row closure: it also reads `test_server` from column 6. */
  function DecodeRow(row: Row): (r: Result<Server, SqlError>)
    ensures |row| <= 6 ==> r.Failure?
    ensures r.Success? <==> DecodeStoredFields(row).Success? && GetBool(row, 6).Success?
    ensures r.Success? ==>
              var f := DecodeStoredFields(row).value;
              && r.value.id == f.id && r.value.name == f.name && r.value.path == f.path
              && r.value.executable == f.executable && r.value.args == f.args
              && r.value.autostart == f.autostart
    ensures r.Success? ==> row[6].SqlInteger? && (r.value.testServer <==> row[6].i != 0)
  {
    var f :- DecodeStoredFields(row);
    var testServer :- GetBool(row, 6);
    Success(Server(f.id, f.name, f.path, f.executable, f.args, f.autostart, testServer))
  }

  /** A row as the SELECT returns it after `insert_server` stored `s` under
      the database-assigned `id`. */
  function SelectedRow(id: Int64, s: Server): Row {
    [SqlInteger(id)] + InsertParams(s)
  }

  /** Every column but the test flag round-trips through insert and select,
      the id column carrying the database-assigned id, exactly when the args
      are words. */
  lemma StoredFieldsRoundTrip(id: Int32, s: Server)
    ensures DecodeStoredFields(SelectedRow(id, s))
            == Success(StoredFields(id, s.name, s.path, s.executable, s.args, s.autostart))
            <==> AllWords(s.args)
  {
    var row := SelectedRow(id, s);
    assert row[4] == SqlText(EncodeArgs(s.args));
    assert row[5] == SqlInteger(EncodeAutostart(s.autostart));
    ArgsRoundTrip(s.args);
    AutostartRoundTrip(s.autostart);
  }

  /** An assigned id outside the `i32` range makes the stored columns fail
      to convert. */
  lemma SelectedRowIdOutOfRange(id: Int64, s: Server)
    requires !(-0x8000_0000 <= id < 0x8000_0000)
    ensures DecodeStoredFields(SelectedRow(id, s)).Failure?
  {
    assert SelectedRow(id, s)[0] == SqlInteger(id);
  }

  /** Whatever was stored, the selected row has no column 6, so the whole
      row conversion fails on the test flag. */
  lemma SelectedRowNeverDecodes(id: Int64, s: Server)
    ensures DecodeRow(SelectedRow(id, s)).Failure?
  {
  }

  /** `rows.filter_map(Result::ok).collect()`: failed rows vanish silently. */
  function LoadServers(rows: seq<Row>): (r: seq<Server>)
    ensures |r| <= |rows|
    ensures (forall i :: 0 <= i < |rows| ==> DecodeRow(rows[i]).Success?) ==> |r| == |rows|
    ensures forall k :: 0 <= k < |r| ==>
              exists i :: 0 <= i < |rows| && DecodeRow(rows[i]) == Success(r[k])
  {
    if |rows| == 0 then []
    else
      var rest := LoadServers(rows[1..]);
      match DecodeRow(rows[0])
      case Success(s) =>
        assert forall k :: 0 < k < |rest| + 1 ==> ([s] + rest)[k] == rest[k - 1];
        [s] + rest
      case Failure(_) => rest
  }

  /** One row is kept exactly when it converts. */
  lemma LoadServersSingle(row: Row)
    ensures LoadServers([row]) == if DecodeRow(row).Success? then [DecodeRow(row).value] else []
  {
    assert [row][1..] == [];
  }

  /** Rows are filtered independently: every converted row is kept, in
      order, whatever happens to the others. */
  lemma {:induction false} LoadServersAppend(a: seq<Row>, b: seq<Row>)
    ensures LoadServers(a + b) == LoadServers(a) + LoadServers(b)
  {
    if |a| == 0 {
      assert a + b == b;
    } else {
      assert (a + b)[0] == a[0];
      assert (a + b)[1..] == a[1..] + b;
      LoadServersAppend(a[1..], b);
    }
  }

  /** What the SELECT returns always has six columns, so `load_servers`
      returns an empty list whatever the table holds. */
  lemma {:induction false} LoadServersAlwaysEmpty(rows: seq<Row>)
    requires forall i :: 0 <= i < |rows| ==> |rows[i]| == 6
    ensures LoadServers(rows) == []
  {
    if |rows| > 0 {
      LoadServersAlwaysEmpty(rows[1..]);
    }
  }
}

=== FILE: results.dfy ===
/** Rust's `Option` (a plain optional value) and `Result` (a value or an
    error; the only one of the two that works with `:-`). */
module Results {

  datatype Option<+T> = None | Some(value: T)

  datatype Result<+T, +E> = Success(value: T) | Failure(error: E) {

    predicate IsFailure() {
      Failure?
    }

    function PropagateFailure<U>(): Result<U, E>
      requires Failure?
    {
      Failure(error)
    }

    function Extract(): T
      requires Success?
    {
      value
    }
  }
}

=== FILE: servers.dfy ===
/** Launching a server (`servers.rs`): shell selection, the command line and
    `Command` built from a `Server`, the dummy/real branch, the log lines the
    reader threads forward, and the dummy runner's messages. */
module Servers {
  import opened Results
  import opened Strings
  import Db

  /** The value of `std::env::consts::OS` as far as the launcher cares. */
  datatype Os = Windows | MacOs | Linux | OtherOs

  datatype ErrorKind = Unsupported | NotFound | PermissionDenied | Other

  /** `io::Error`: a kind and its message. */
  datatype IoError = IoError(kind: ErrorKind, message: string)

  /** The shell program, its "run this string" flag and its change-directory
      idiom. */
  datatype Shell = Shell(program: string, flag: string, changeDirPrefix: string)

  function SelectShell(os: Os): (r: Result<Shell, IoError>)
    ensures r.Failure? <==> os == OtherOs
    ensures r.Failure? ==> r.error == IoError(Unsupported, "Unsupported OS")
    ensures os == Windows ==> r == Success(Shell("cmd", "/C", "cd /d"))
    ensures os == MacOs || os == Linux ==> r == Success(Shell("sh", "-c", "cd"))
  {
    match os
    case Windows => Success(Shell("cmd", "/C", "cd /d"))
    case MacOs => Success(Shell("sh", "-c", "cd"))
    case Linux => Success(Shell("sh", "-c", "cd"))
    case OtherOs => Failure(IoError(Unsupported, "Unsupported OS"))
  }

  /** The directory-change clause: the path verbatim on Windows, wrapped in
      single quotes elsewhere, with no escaping of quotes inside it. */
  function CdClause(os: Os, prefix: string, path: string): (r: string)
    ensures os == Windows ==> |r| == |prefix| + 1 + |path|
    ensures os == Windows ==> r[..|prefix| + 1] == prefix + " " && r[|prefix| + 1..] == path
    ensures os != Windows ==>
              && |r| == |prefix| + |path| + 3
              && r[..|prefix| + 2] == prefix + " '"
              && r[|prefix| + 2..|r| - 1] == path && r[|r| - 1] == '\''
  {
    if os == Windows then prefix + " " + path else prefix + " '" + path + "'"
  }

  /** `executable` followed by a space and the space-joined args; the space
      is there even when there are no args. */
  function ProgramLine(executable: string, args: seq<string>): (r: string)
    ensures |r| == |executable| + 1 + |JoinSpace(args)|
    ensures r[..|executable| + 1] == executable + " "
    ensures r[|executable| + 1..] == JoinSpace(args)
  {
    executable + " " + JoinSpace(args)
  }

  datatype Stdio = Inherit | Piped

  /** The `Command` builder as configured: program, argument vector (which
      `args` only ever appends to), working directory, stdio settings. */
  datatype CommandSpec = CommandSpec(
    program: string,
    args: seq<string>,
    currentDir: Option<string>,
    stdout: Stdio,
    stderr: Stdio)

  /** The command `launch` spawns for a real (non-dummy) server. */
  function BuildCommand(server: Db.Server, os: Os): (r: Result<CommandSpec, IoError>)
    ensures r.Failure? <==> os == OtherOs
    ensures r.Failure? ==> r.error.kind == Unsupported
    ensures r.Success? ==> r.value.stdout == Piped && r.value.stderr == Piped
    ensures os == Windows ==>
              r.value.program == "cmd" && r.value.currentDir == None
              && r.value.args == ["/C", "cd /d" + " " + server.path + " && "
                                        + ProgramLine(server.executable, server.args)]
    ensures os == MacOs || os == Linux ==>
              r.value.program == "sh" && r.value.currentDir == Some(server.path)
              && r.value.args == ["-c", "cd" + " '" + server.path + "'" + " && "
                                        + ProgramLine(server.executable, server.args),
                                  "-c", ProgramLine(server.executable, server.args)]
  {
    var shell :- SelectShell(os);
    var line := ProgramLine(server.executable, server.args);
    var full := CdClause(os, shell.changeDirPrefix, server.path) + " && " + line;
    var base := CommandSpec(shell.program, [shell.flag, full], None, Piped, Piped);
    if os != Windows then
      // The second `args` call appends another flag/command pair.
      Success(base.(currentDir := Some(server.path), args := base.args + [shell.flag, line]))
    else
      Success(base)
  }

  /** Off Windows the appended pair repeats the command line that follows
      the `cd` clause of the first pair; the first pair always comes first. */
  lemma AppendedPairRepeatsProgramLine(server: Db.Server, os: Os)
    requires os == MacOs || os == Linux
    ensures var c := BuildCommand(server, os).value;
            |c.args| == 4 && c.args[0] == c.args[2]
            && c.args[1] == CdClause(os, "cd", server.path) + " && " + c.args[3]
  {
  }

  /** With no args the command line still ends in a space. */
  lemma EmptyArgsTrailingSpace(executable: string)
    ensures ProgramLine(executable, []) == executable + " "
  {
  }

  /** The command line splits back into the executable and the args exactly
      when all of them are words. */
  lemma ProgramLineTokens(executable: string, args: seq<string>)
    ensures SplitWhitespace(ProgramLine(executable, args)) == [executable] + args
            <==> AllWords([executable] + args)
  {
    var ws := [executable] + args;
    if |args| == 0 {
      assert ProgramLine(executable, args) == JoinSpace(ws) + " ";
      if IsWord(executable) {
        SplitFromWord(executable, " ", "");
        assert "" + executable == executable;
        assert executable + " " == ProgramLine(executable, args);
        assert " "[1..] == "";
      }
    } else {
      assert ws[1..] == args;
      assert ProgramLine(executable, args) == JoinSpace(ws);
    }
    JoinSplitRoundTripIff(ws);
  }

  /** Index of the first single quote in `s` at or after `from`, or `|s|`. */
  function NextQuote(s: string, from: nat): (k: nat)
    requires from <= |s|
    ensures from <= k <= |s|
    ensures k < |s| ==> s[k] == '\''
    ensures forall j :: from <= j < k ==> s[j] != '\''
    decreases |s| - from
  {
    if from == |s| then |s|
    else if s[from] == '\'' then from
    else NextQuote(s, from + 1)
  }

  /** Off Windows the quote opened after `cd ` closes at the very end of the
      clause exactly when the path holds no single quote; otherwise the path
      leaks out of the quoted word. */
  lemma CdQuoteClosesAtEnd(path: string)
    ensures var cd := CdClause(Linux, "cd", path);
            NextQuote(cd, 4) == |cd| - 1 <==> '\'' !in path
  {
    var cd := CdClause(Linux, "cd", path);
    assert cd == "cd '" + path + "'";
    assert forall j :: 0 <= j < |path| ==> cd[4 + j] == path[j];
    var k := NextQuote(cd, 4);
    if '\'' !in path {
      assert cd[|cd| - 1] == '\'';
    } else {
      var j :| 0 <= j < |path| && path[j] == '\'';
      assert cd[4 + j] == '\'';
    }
  }

  // ---------------------------------------------------------------------
  // Launch

  /** What the OS answers to `spawn` for a given command. */
  datatype SpawnOutcome = Spawned(pid: nat) | SpawnFailed(kind: ErrorKind, detail: string)

  datatype Child = Child(pid: nat)

  /** `ServerHandle` without its channel sender. */
  datatype ServerHandle = ServerHandle(child: Option<Child>, name: string, running: bool)

  /** `dummy_launch`: a handle with no child process. */
  function DummyLaunch(server: Db.Server): (r: Result<ServerHandle, IoError>)
    ensures r.Success? && r.value.child.None? && r.value.running
    ensures r.value.name == server.name
  {
    Success(ServerHandle(None, server.name, true))
  }

  /** `launch`. The host OS and the spawn itself are parameters. The
      dummy branch is taken before the OS is looked at. */
  function Launch(server: Db.Server, os: Os, dummy: bool,
                  spawn: CommandSpec -> SpawnOutcome): (r: Result<ServerHandle, IoError>)
    ensures r.Success? ==> r.value.running && r.value.name == server.name
    ensures dummy ==> r.Success? && r.value.child.None?
    ensures !dummy && os == OtherOs ==> r == Failure(IoError(Unsupported, "Unsupported OS"))
    ensures !dummy && os != OtherOs ==>
              var out := spawn(BuildCommand(server, os).value);
              && (out.SpawnFailed? ==>
                    r == Failure(IoError(out.kind, "Failed to spawn server " + server.name
                                                   + ": " + out.detail)))
              && (out.Spawned? ==> r.Success? && r.value.child == Some(Child(out.pid)))
  {
    if dummy then DummyLaunch(server)
    else
      var cmd :- BuildCommand(server, os);
      match spawn(cmd)
      case SpawnFailed(kind, detail) =>
        Failure(IoError(kind, "Failed to spawn server " + server.name + ": " + detail))
      case Spawned(pid) =>
        // The pipes exist because the command asked for them.
        if cmd.stdout != Piped then Failure(IoError(Other, "Could not capture stdout."))
        else if cmd.stderr != Piped then Failure(IoError(Other, "Could not capture stderr."))
        else Success(ServerHandle(Some(Child(pid)), server.name, true))
  }

  /** The dummy branch depends on neither the OS nor the spawner. */
  lemma DummyLaunchIgnoresHost(server: Db.Server, os1: Os, os2: Os,
                               spawn1: CommandSpec -> SpawnOutcome,
                               spawn2: CommandSpec -> SpawnOutcome)
    ensures Launch(server, os1, true, spawn1) == Launch(server, os2, true, spawn2)
  {
  }

  // ---------------------------------------------------------------------
  // Output capture

  datatype Stream = Stdout | Stderr

  /** One item of `BufReader::lines()`: a line, or a read error. */
  datatype LineRead = LineOk(text: string) | LineErr(reason: string)

  function LinePrefix(name: string, stream: Stream): string {
    "[" + name + "] " + (if stream == Stderr then "[stderr] " else "")
  }

  /** The message a reader thread sends for one line. */
  function FormatLine(name: string, stream: Stream, line: string): (m: string)
    ensures LinePrefix(name, stream) <= m
    ensures m[|LinePrefix(name, stream)|..] == line
  {
    LinePrefix(name, stream) + line
  }

  /** A stdout line that starts with `[stderr] ` cannot be told apart from a
      stderr line. */
  lemma StreamTagAmbiguous(name: string, line: string)
    ensures FormatLine(name, Stdout, "[stderr] " + line) == FormatLine(name, Stderr, line)
  {
    assert LinePrefix(name, Stdout) + ("[stderr] " + line)
           == ("[" + name + "] ") + "[stderr] " + line;
  }

  /** The messages one reader thread sends: each line formatted, each read
      error reported on the diagnostic stream only. */
  function CaptureStream(name: string, stream: Stream, items: seq<LineRead>): (r: seq<string>)
    ensures |r| <= |items|
    ensures forall k :: 0 <= k < |r| ==> LinePrefix(name, stream) <= r[k]
  {
    if |items| == 0 then []
    else
      var rest := CaptureStream(name, stream, items[1..]);
      match items[0]
      case LineOk(text) =>
        assert forall k :: 0 < k < |rest| + 1 ==> ([FormatLine(name, stream, text)] + rest)[k] == rest[k - 1];
        [FormatLine(name, stream, text)] + rest
      case LineErr(_) => rest
  }

  lemma {:induction false} CaptureStreamAppend(name: string, stream: Stream, a: seq<LineRead>, b: seq<LineRead>)
    ensures CaptureStream(name, stream, a + b)
            == CaptureStream(name, stream, a) + CaptureStream(name, stream, b)
  {
    if |a| > 0 {
      assert (a + b)[0] == a[0];
      assert (a + b)[1..] == a[1..] + b;
      CaptureStreamAppend(name, stream, a[1..], b);
    } else {
      assert a + b == b;
    }
  }

  /** A read error drops nothing but itself. */
  lemma CaptureSkipsReadErrors(name: string, stream: Stream, a: seq<LineRead>,
                               reason: string, b: seq<LineRead>)
    ensures CaptureStream(name, stream, a + [LineErr(reason)] + b)
            == CaptureStream(name, stream, a + b)
  {
    CaptureStreamAppend(name, stream, a + [LineErr(reason)], b);
    CaptureStreamAppend(name, stream, a, [LineErr(reason)]);
    CaptureStreamAppend(name, stream, a, b);
    assert [LineErr(reason)][1..] == [];
  }

  /** Without read errors, lines map one-to-one and in order, and removing
      the prefix gives each line back. */
  lemma {:induction false} CaptureStreamOneToOne(name: string, stream: Stream, items: seq<LineRead>)
    requires forall i :: 0 <= i < |items| ==> items[i].LineOk?
    ensures var r := CaptureStream(name, stream, items);
            |r| == |items|
            && (forall i :: 0 <= i < |r| ==>
                  && r[i] == FormatLine(name, stream, items[i].text)
                  && r[i][|LinePrefix(name, stream)|..] == items[i].text)
  {
    if |items| > 0 {
      CaptureStreamOneToOne(name, stream, items[1..]);
    }
  }

  // ---------------------------------------------------------------------
  // The dummy runner

  /** Number of messages the dummy runner sends. */
  const DummyCount: nat := 5

  function DummyPrefix(name: string): string {
    "[" + name + "] Dummy server running... "
  }

  function DummyMessage(name: string, i: nat): string {
    DummyPrefix(name) + NatToDecimal(i)
  }

  /** A dummy message looks like a stdout line of the same server. */
  lemma DummyMessageIsStdoutLine(name: string, i: nat)
    ensures DummyMessage(name, i)
            == FormatLine(name, Stdout, "Dummy server running... " + NatToDecimal(i))
  {
    assert DummyPrefix(name) == LinePrefix(name, Stdout) + "Dummy server running... ";
  }

  /** The messages of the dummy runner's thread, in send order. The number
      after the last space is the message's position. */
  method DummyRun(name: string) returns (msgs: seq<string>)
    ensures |msgs| == DummyCount
    ensures forall i :: 0 <= i < |msgs| ==> msgs[i] == DummyMessage(name, i)
    ensures forall i :: 0 <= i < |msgs| ==>
              DummyPrefix(name) <= msgs[i] &&
              var tail := msgs[i][|DummyPrefix(name)|..];
              (forall j :: 0 <= j < |tail| ==> IsDigit(tail[j])) && DecimalValue(tail) == i
  {
    msgs := [];
    var i := 0;
    while i < DummyCount
      invariant 0 <= i <= DummyCount
      invariant |msgs| == i
      invariant forall k :: 0 <= k < i ==> msgs[k] == DummyMessage(name, k)
      invariant forall k :: 0 <= k < i ==>
                  DummyPrefix(name) <= msgs[k] &&
                  var tail := msgs[k][|DummyPrefix(name)|..];
                  (forall j :: 0 <= j < |tail| ==> IsDigit(tail[j])) && DecimalValue(tail) == k
    {
      var m := DummyMessage(name, i);
      assert m[|DummyPrefix(name)|..] == NatToDecimal(i);
      DecimalRoundTrip(i);
      msgs := msgs + [m];
      i := i + 1;
    }
  }
}

=== FILE: strings.dfy ===
/** The string handling the launcher relies on: Rust's notion of whitespace,
    `join(" ")`, `split_whitespace`, and the decimal rendering of `{}`. */
module Strings {

  /** `char::is_whitespace`: the Unicode White_Space property. On ASCII it
      is space, tab, line feed, vertical tab, form feed and carriage return. */
  predicate IsWhitespace(c: char)
    ensures c as int < 0x80 ==> (IsWhitespace(c) <==> c in " \t\n\r" || c as int == 0x0B || c as int == 0x0C)
    ensures IsWhitespace(c) ==> !IsDigit(c) && c != '\''
  {
    var n := c as int;
    (9 <= n <= 13) || n == 0x20 || n == 0x85 || n == 0xA0 || n == 0x1680
    || (0x2000 <= n <= 0x200A) || n == 0x2028 || n == 0x2029 || n == 0x202F
    || n == 0x205F || n == 0x3000
  }

  predicate NoWhitespace(s: string) {
    forall i :: 0 <= i < |s| ==> !IsWhitespace(s[i])
  }

  /** A word survives `split_whitespace` unchanged: non-empty, no whitespace. */
  predicate IsWord(w: string) {
    |w| > 0 && NoWhitespace(w)
  }

  predicate AllWords(ws: seq<string>) {
    forall i :: 0 <= i < |ws| ==> IsWord(ws[i])
  }

  /** `words.join(" ")`: one space between neighbours, none around. */
  function JoinSpace(words: seq<string>): (r: string)
    ensures |words| == 0 ==> r == ""
    ensures |words| > 0 ==> |r| + 1 == |Concat(words)| + |words|
    ensures |words| > 0 ==> words[0] <= r
  {
    if |words| == 0 then ""
    else if |words| == 1 then words[0]
    else words[0] + " " + JoinSpace(words[1..])
  }

  lemma JoinSpaceSingle(w: string)
    ensures JoinSpace([w]) == w
  {
  }

  /** Joining two non-empty lists puts exactly one space between them. */
  lemma {:induction false} JoinSpaceAppend(a: seq<string>, b: seq<string>)
    requires |a| > 0 && |b| > 0
    ensures JoinSpace(a + b) == JoinSpace(a) + " " + JoinSpace(b)
  {
    if |a| == 1 {
      assert (a + b)[0] == a[0];
      assert (a + b)[1..] == b;
    } else {
      assert (a + b)[0] == a[0];
      assert (a + b)[1..] == a[1..] + b;
      JoinSpaceAppend(a[1..], b);
    }
  }

  /** All the words laid end to end. */
  function Concat(ws: seq<string>): string {
    if |ws| == 0 then "" else ws[0] + Concat(ws[1..])
  }

  /** The characters of `s` that are not whitespace, in order. */
  function DropWhitespace(s: string): (r: string)
    ensures NoWhitespace(r)
  {
    if |s| == 0 then ""
    else if IsWhitespace(s[0]) then DropWhitespace(s[1..])
    else [s[0]] + DropWhitespace(s[1..])
  }

  /** The scanner behind `split_whitespace`: `cur` is the word read so far. */
  function SplitFrom(s: string, cur: string): (r: seq<string>)
    requires NoWhitespace(cur)
    ensures AllWords(r)
    decreases |s|
  {
    if |s| == 0 then
      (if |cur| == 0 then [] else [cur])
    else if IsWhitespace(s[0]) then
      var rest := SplitFrom(s[1..], "");
      if |cur| == 0 then rest else [cur] + rest
    else
      SplitFrom(s[1..], cur + [s[0]])
  }

  lemma {:induction false} SplitFromConcat(s: string, cur: string)
    requires NoWhitespace(cur)
    ensures Concat(SplitFrom(s, cur)) == cur + DropWhitespace(s)
    decreases |s|
  {
    if |s| == 0 {
      if |cur| > 0 {
        assert Concat([cur]) == cur + Concat([]);
      }
    } else if IsWhitespace(s[0]) {
      var rest := SplitFrom(s[1..], "");
      SplitFromConcat(s[1..], "");
      if |cur| > 0 {
        assert ([cur] + rest)[1..] == rest;
      }
    } else {
      SplitFromConcat(s[1..], cur + [s[0]]);
      assert cur + [s[0]] + DropWhitespace(s[1..]) == cur + ([s[0]] + DropWhitespace(s[1..]));
    }
  }

  /** `s.split_whitespace().collect()`: the maximal runs of non-whitespace. */
  function SplitWhitespace(s: string): (r: seq<string>)
    ensures AllWords(r)
    ensures Concat(r) == DropWhitespace(s)
  {
    SplitFromConcat(s, "");
    SplitFrom(s, "")
  }

  /** The three equations below determine `split_whitespace` on every
      string: a lone word, leading whitespace, a word ended by whitespace. */
  lemma SplitWhitespaceWord(w: string)
    requires IsWord(w)
    ensures SplitWhitespace(w) == [w]
  {
    SplitFromWord(w, "", "");
    assert w + "" == w;
    assert "" + w == w;
  }

  lemma SplitWhitespaceSkipsLeading(c: char, t: string)
    requires IsWhitespace(c)
    ensures SplitWhitespace([c] + t) == SplitWhitespace(t)
  {
    assert ([c] + t)[1..] == t;
  }

  lemma SplitWhitespaceWordThenSpace(w: string, c: char, t: string)
    requires IsWord(w) && IsWhitespace(c)
    ensures SplitWhitespace(w + [c] + t) == [w] + SplitWhitespace(t)
  {
    assert w + [c] + t == w + ([c] + t);
    SplitFromWord(w, [c] + t, "");
    assert "" + w == w;
    assert ([c] + t)[1..] == t;
  }

  lemma {:induction false} SplitFromWord(w: string, rest: string, cur: string)
    requires NoWhitespace(cur) && NoWhitespace(w)
    ensures SplitFrom(w + rest, cur) == SplitFrom(rest, cur + w)
    decreases |w|
  {
    if |w| == 0 {
      assert w + rest == rest;
      assert cur + w == cur;
    } else {
      assert (w + rest)[0] == w[0];
      assert (w + rest)[1..] == w[1..] + rest;
      assert NoWhitespace(w[1..]);
      SplitFromWord(w[1..], rest, cur + [w[0]]);
      assert cur + [w[0]] + w[1..] == cur + w;
    }
  }

  /** Joining words with single spaces and splitting on whitespace gives the
      words back. */
  lemma {:induction false} SplitJoin(ws: seq<string>)
    requires AllWords(ws)
    ensures SplitWhitespace(JoinSpace(ws)) == ws
  {
    if |ws| == 0 {
    } else if |ws| == 1 {
      SplitFromWord(ws[0], "", "");
      assert ws[0] + "" == ws[0];
      assert "" + ws[0] == ws[0];
    } else {
      var w := ws[0];
      var rest := JoinSpace(ws[1..]);
      assert JoinSpace(ws) == w + (" " + rest);
      SplitFromWord(w, " " + rest, "");
      assert "" + w == w;
      assert (" " + rest)[0] == ' ';
      assert (" " + rest)[1..] == rest;
      SplitJoin(ws[1..]);
      assert ws == [w] + ws[1..];
    }
  }

  /** The join/split round trip holds exactly for lists of words. */
  lemma JoinSplitRoundTripIff(ws: seq<string>)
    ensures SplitWhitespace(JoinSpace(ws)) == ws <==> AllWords(ws)
  {
    if AllWords(ws) {
      SplitJoin(ws);
    }
  }

  /** Splitting a re-joined split changes nothing: storing what was loaded is
      stable. */
  lemma SplitJoinSplitStable(s: string)
    ensures SplitWhitespace(JoinSpace(SplitWhitespace(s))) == SplitWhitespace(s)
  {
    SplitJoin(SplitWhitespace(s));
  }

  predicate IsDigit(c: char) {
    '0' <= c <= '9'
  }

  function DigitChar(d: nat): (c: char)
    requires d < 10
    ensures IsDigit(c)
  {
    ('0' as int + d) as char
  }

  /** The `{}` rendering of an unsigned integer: decimal, no leading zeros. */
  function NatToDecimal(n: nat): (r: string)
    ensures |r| > 0
    ensures forall i :: 0 <= i < |r| ==> IsDigit(r[i])
    ensures n > 0 ==> r[0] != '0'
  {
    if n < 10 then [DigitChar(n)] else NatToDecimal(n / 10) + [DigitChar(n % 10)]
  }

  /** The number a string of decimal digits denotes. */
  function DecimalValue(s: string): nat
    requires forall i :: 0 <= i < |s| ==> IsDigit(s[i])
  {
    if |s| == 0 then 0
    else
      var last := s[|s| - 1];
      assert IsDigit(last);
      DecimalValue(s[..|s| - 1]) * 10 + (last as int - '0' as int)
  }

  lemma {:induction false} DecimalRoundTrip(n: nat)
    ensures DecimalValue(NatToDecimal(n)) == n
  {
    if n >= 10 {
      var t := NatToDecimal(n / 10);
      var r := NatToDecimal(n);
      assert r == t + [DigitChar(n % 10)];
      assert r[..|r| - 1] == t;
      DecimalRoundTrip(n / 10);
    }
  }
}

=== FILE: tui.dfy ===
/** The dashboard state of `tui.rs`: the tick counter, the log panel, the
    server list and the selection, driven by key events. Drawing and the
    terminal are not part of this model. */
module Tui {
  import opened Strings

  /** `App`. Of the available servers only their names are kept. */
  datatype App = App(counter: nat, logs: seq<string>, servers: seq<string>, selected: nat)

  /** `on_tick` trims the log once it is longer than this. */
  const LogLimit: nat := 20

  /** The selection points into a non-empty server list. */
  predicate Valid(a: App) {
    0 < |a.servers| && a.selected < |a.servers|
  }

  /** `App::new`. */
  function New(): (a: App)
    ensures Valid(a)
    ensures a.counter == 0 && a.selected == 0 && |a.servers| == 3
    ensures a.logs == ["Log panel initialized."]
  {
    App(0, ["Log panel initialized."], ["Server 1", "Server 2", "Server 3"], 0)
  }

  /** `App::on_tick`: count the tick, and drop the oldest log entry when the
      log is over the limit. */
  function OnTick(a: App): (r: App)
    ensures r.counter == a.counter + 1
    ensures r.selected == a.selected && r.servers == a.servers
    ensures |a.logs| > LogLimit ==> r.logs == a.logs[1..]
    ensures |a.logs| <= LogLimit ==> r.logs == a.logs
    ensures |a.logs| <= LogLimit + 1 ==> |r.logs| <= LogLimit
  {
    var logs := if |a.logs| > LogLimit then a.logs[1..] else a.logs;
    a.(counter := a.counter + 1, logs := logs)
  }

  // ---------------------------------------------------------------------
  // wrap_index

  /** `x.rem_euclid(n)` for positive `n` is Dafny's `%`. */
  lemma ModUnique(x: int, n: int, q: int, r: int)
    requires n > 0 && 0 <= r < n && x == n * q + r
    ensures x % n == r
  {
    var q', r' := x / n, x % n;
    assert x == n * q' + r';
    var k := q - q';
    assert n * k == r' - r by {
      assert n * q - n * q' == r' - r;
    }
    if k >= 1 {
      MulAtLeast(n, k);
    } else if k <= -1 {
      MulAtLeast(n, -k);
    }
  }

  lemma MulAtLeast(n: int, k: int)
    requires n > 0 && k >= 1
    ensures n * k >= n
  {
    assert n * k == n * (k - 1) + n;
    assert n * (k - 1) >= 0;
  }

  /** `wrap_index(index, max_index, delta)`: move by `delta` within
      `0..=max_index`, wrapping at both ends. */
  function WrapIndex(index: nat, maxIndex: nat, delta: int): (r: nat)
    ensures r <= maxIndex
    ensures (index + delta - r) % (maxIndex + 1) == 0
  {
    var n := maxIndex + 1;
    var x := index + delta;
    ModUnique(x - x % n, n, x / n, 0);
    x % n
  }

  /** The result is the one point of `0..=maxIndex` congruent to the target. */
  lemma WrapIndexUnique(index: nat, maxIndex: nat, delta: int, k: int, r: int)
    requires 0 <= r <= maxIndex && index + delta == (maxIndex + 1) * k + r
    ensures WrapIndex(index, maxIndex, delta) == r
  {
    ModUnique(index + delta, maxIndex + 1, k, r);
  }

  lemma WrapIndexZeroDelta(index: nat, maxIndex: nat)
    requires index <= maxIndex
    ensures WrapIndex(index, maxIndex, 0) == index
  {
    WrapIndexUnique(index, maxIndex, 0, 0, index);
  }

  lemma WrapIndexWrapsAround(maxIndex: nat)
    ensures WrapIndex(maxIndex, maxIndex, 1) == 0
    ensures WrapIndex(0, maxIndex, -1) == maxIndex
  {
    WrapIndexUnique(maxIndex, maxIndex, 1, 1, 0);
    WrapIndexUnique(0, maxIndex, -1, -1, maxIndex);
  }

  /** Moving by `delta` and then by `-delta` returns to the start. */
  lemma WrapIndexInverse(index: nat, maxIndex: nat, delta: int)
    requires index <= maxIndex
    ensures WrapIndex(WrapIndex(index, maxIndex, delta), maxIndex, -delta) == index
  {
    var n := maxIndex + 1;
    var x := index + delta;
    var m := WrapIndex(index, maxIndex, delta);
    assert m == x % n;
    assert x == n * (x / n) + m;
    WrapIndexUnique(m, maxIndex, -delta, -(x / n), index);
  }

  // ---------------------------------------------------------------------
  // Events

  datatype KeyKind = Press | Repeat | Release

  datatype KeyCode = Char(c: char) | Up | Down | Enter | Esc | OtherKey

  datatype Event = Key(kind: KeyKind, code: KeyCode) | OtherEvent

  /** One `event::poll` (and `event::read`) of the loop. */
  datatype Poll = Idle | Ready(event: Event) | PollFailed(reason: string)

  /** How one iteration of `run_app` ends. A panic is the process aborting:
      an underflowing `len() - 1`, a remainder by zero or an out-of-range
      index. */
  datatype Outcome = Continue(app: App) | Quit | Failed(reason: string) | Panic

  /** Down (delta -1) or Up (delta +1): log the key, move the selection with
      wrap-around, log the new index. */
  function Move(a: App, entry: string, delta: int): (r: Outcome)
    ensures r.Panic? <==> |a.servers| == 0
    ensures |a.servers| > 0 ==> r.Continue?
    ensures r.Continue? ==>
              && r.app.selected == WrapIndex(a.selected, |a.servers| - 1, delta)
              && Valid(r.app)
              && r.app.logs == a.logs + [entry, "new index is " + NatToDecimal(r.app.selected)]
              && r.app == a.(selected := r.app.selected, logs := r.app.logs)
  {
    if |a.servers| == 0 then Panic
    else
      var logged := a.logs + [entry];
      var index := WrapIndex(a.selected, |a.servers| - 1, delta);
      Continue(a.(selected := index, logs := logged + ["new index is " + NatToDecimal(index)]))
  }

  /** Enter or X: log the key and the name of the selected server. */
  function Report(a: App, entry: string, what: string): (r: Outcome)
    ensures r.Panic? <==> a.selected >= |a.servers|
    ensures a.selected < |a.servers| ==> r.Continue?
    ensures r.Continue? ==>
              r.app == a.(logs := a.logs + [entry, what + a.servers[a.selected]])
  {
    if a.selected < |a.servers| then
      Continue(a.(logs := a.logs + [entry, what + a.servers[a.selected]]))
    else Panic
  }

  /** The keys that end the loop: a press of q, Q or Esc. */
  predicate IsQuitKey(kind: KeyKind, code: KeyCode) {
    kind == Press && code in {Char('q'), Char('Q'), Esc}
  }

  /** The keys the loop reacts to; every other key event is ignored. */
  predicate IsBoundKey(kind: KeyKind, code: KeyCode) {
    || (kind == Press && code in {Char('q'), Char('Q'), Esc, Down, Up, Enter, Char('j'), Char('J'),
                                  Char('k'), Char('K'), Char('x'), Char('X')})
    || (kind == Repeat && code == Enter)
  }

  /** The key match of `run_app`, before the tick. */
  function HandleKey(a: App, kind: KeyKind, code: KeyCode): (r: Outcome)
    ensures !r.Failed?
    ensures Valid(a) ==> !r.Panic?
    ensures r.Quit? <==> IsQuitKey(kind, code)
    ensures r.Continue? ==> r.app.counter == a.counter && r.app.servers == a.servers
    ensures r.Continue? ==> r.app.logs == a.logs || (|r.app.logs| == |a.logs| + 2 && a.logs <= r.app.logs)
    ensures r.Continue? && Valid(a) ==> Valid(r.app)
    ensures kind == Press && code in {Down, Char('j'), Char('J')} && Valid(a) ==>
              r.Continue? && r.app.selected == WrapIndex(a.selected, |a.servers| - 1, -1)
    ensures kind == Press && code in {Up, Char('k'), Char('K')} && Valid(a) ==>
              r.Continue? && r.app.selected == WrapIndex(a.selected, |a.servers| - 1, 1)
    ensures r.Continue? && r.app.selected != a.selected ==>
              kind == Press && code in {Down, Char('j'), Char('J'), Up, Char('k'), Char('K')}
    ensures kind == Press && code in {Down, Char('j'), Char('J')} && |a.servers| > 0 ==>
              r.Continue? && r.app.logs == a.logs + ["Select Down", "new index is " + NatToDecimal(r.app.selected)]
    ensures kind == Press && code in {Up, Char('k'), Char('K')} && |a.servers| > 0 ==>
              r.Continue? && r.app.logs == a.logs + ["Select Up", "new index is " + NatToDecimal(r.app.selected)]
    ensures kind == Press && code == Enter && a.selected < |a.servers| ==>
              r.Continue? && r.app.logs == a.logs + ["Pressed Enter", "Selected server: " + a.servers[a.selected]]
    ensures kind == Press && code in {Char('x'), Char('X')} && a.selected < |a.servers| ==>
              r.Continue? && r.app.logs == a.logs + ["Pressed X", "Killing server: " + a.servers[a.selected]]
    ensures !IsBoundKey(kind, code) ==> r == Continue(a)
    ensures kind == Repeat && code == Enter && a.selected < |a.servers| ==>
              r.Continue? && r.app.logs == a.logs + ["Pressed Enter as a Repeat", "Launching server: " + a.servers[a.selected]]
  {
    match kind
    case Press => (
      match code
      case Char(c) =>
        if c == 'q' || c == 'Q' then Quit
        else if c == 'j' || c == 'J' then Move(a, "Select Down", -1)
        else if c == 'k' || c == 'K' then Move(a, "Select Up", 1)
        else if c == 'x' || c == 'X' then Report(a, "Pressed X", "Killing server: ")
        else Continue(a)
      case Esc => Quit
      case Down => Move(a, "Select Down", -1)
      case Up => Move(a, "Select Up", 1)
      case Enter => Report(a, "Pressed Enter", "Selected server: ")
      case OtherKey => Continue(a))
    case Repeat =>
      if code == Enter then Report(a, "Pressed Enter as a Repeat", "Launching server: ")
      else Continue(a)
    case Release => Continue(a)
  }

  /** The polls that end the loop: a failed poll or read, or a quit key. */
  predicate EndsLoop(poll: Poll) {
    poll.PollFailed? || (poll.Ready? && poll.event.Key? && IsQuitKey(poll.event.kind, poll.event.code))
  }

  /** One iteration of `run_app`: react to at most one event, then tick. */
  function Step(a: App, poll: Poll): (r: Outcome)
    ensures Valid(a) ==> !r.Panic?
    ensures r.Quit? <==> poll.Ready? && poll.event.Key? && IsQuitKey(poll.event.kind, poll.event.code)
    ensures r.Failed? <==> poll.PollFailed?
    ensures poll.PollFailed? ==> r == Failed(poll.reason)
    ensures Valid(a) && !EndsLoop(poll) ==> r.Continue?
    ensures r.Continue? ==> r.app.counter == a.counter + 1 && r.app.servers == a.servers
    ensures r.Continue? && Valid(a) ==> Valid(r.app)
    ensures r.Continue? ==> |r.app.logs| <= if |a.logs| + 1 > LogLimit then |a.logs| + 1 else LogLimit
    ensures r.Continue? ==> a.logs <= r.app.logs || (|a.logs| > 0 && a.logs[1..] <= r.app.logs)
    ensures poll.Idle? ==> r == Continue(OnTick(a))
    ensures poll == Ready(OtherEvent) ==> r == Continue(OnTick(a))
    ensures poll.Ready? && poll.event.Key? && HandleKey(a, poll.event.kind, poll.event.code).Continue? ==>
              r == Continue(OnTick(HandleKey(a, poll.event.kind, poll.event.code).app))
  {
    match poll
    case Idle => Continue(OnTick(a))
    case PollFailed(reason) => Failed(reason)
    case Ready(OtherEvent) => Continue(OnTick(a))
    case Ready(Key(kind, code)) =>
      match HandleKey(a, kind, code)
      case Continue(b) =>
        assert |a.logs| > 0 && |b.logs| > LogLimit ==> a.logs[1..] <= b.logs[1..];
        Continue(OnTick(b))
      case other => other
  }

  /** `run_app` over a sequence of polls: the outcome after the last one, or
      the first outcome that ends the loop. */
  function Run(a: App, polls: seq<Poll>): (r: Outcome)
    ensures Valid(a) ==> !r.Panic?
    ensures |polls| == 0 ==> r == Continue(a)
    ensures r.Continue? ==> r.app.counter == a.counter + |polls| && r.app.servers == a.servers
    ensures r.Continue? && Valid(a) ==> Valid(r.app)
    ensures Valid(a) && (forall i :: 0 <= i < |polls| ==> !EndsLoop(polls[i])) ==> r.Continue?
    ensures !r.Continue? ==> r.Panic? || exists i :: 0 <= i < |polls| && EndsLoop(polls[i])
    ensures Valid(a) && (exists i :: 0 <= i < |polls| && EndsLoop(polls[i])) ==> !r.Continue?
    ensures Valid(a) && |polls| > 0 && EndsLoop(polls[0]) ==> r == Step(a, polls[0])
    ensures r.Quit? ==> exists i :: 0 <= i < |polls| && polls[i].Ready? && polls[i].event.Key?
                                    && IsQuitKey(polls[i].event.kind, polls[i].event.code)
    ensures r.Failed? ==> exists i :: 0 <= i < |polls| && polls[i].PollFailed?
    decreases |polls|
  {
    if |polls| == 0 then Continue(a)
    else
      assert forall i :: 0 <= i < |polls| - 1 ==> polls[1..][i] == polls[i + 1];
      match Step(a, polls[0])
      case Continue(b) => Run(b, polls[1..])
      case other => other
  }

  /** A run of one poll is one iteration. */
  lemma RunSingle(a: App, poll: Poll)
    ensures Run(a, [poll]) == Step(a, poll)
  {
    assert [poll][1..] == [];
  }

  /** A run over `p + q` is the run over `p`, continued over `q` from where it
      left off unless `p` already ended it: iterations happen one after the
      other, in order. */
  lemma {:induction false} RunAppend(a: App, p: seq<Poll>, q: seq<Poll>)
    decreases |p|
    ensures Run(a, p + q) == (match Run(a, p) case Continue(b) => Run(b, q) case other => other)
  {
    if |p| == 0 {
      assert p + q == q;
    } else {
      assert (p + q)[0] == p[0];
      assert (p + q)[1..] == p[1..] + q;
      match Step(a, p[0])
      case Continue(b) => RunAppend(b, p[1..], q);
      case _ =>
    }
  }

  /** The first poll that ends the loop decides the outcome, whatever follows
      it: the iterations before it all continue, and it is handled from the
      state they reach. */
  lemma FirstEndingPollDecides(a: App, p: seq<Poll>, e: Poll, q: seq<Poll>)
    requires Valid(a) && EndsLoop(e)
    requires forall i :: 0 <= i < |p| ==> !EndsLoop(p[i])
    ensures Run(a, p).Continue?
    ensures Run(a, p + [e] + q) == Step(Run(a, p).app, e)
  {
    assert p + [e] + q == p + ([e] + q);
    RunAppend(a, p, [e] + q);
    assert ([e] + q)[0] == e;
  }

  /** The dashboard as started never panics, and the selection stays in the
      list however the keys are pressed. */
  lemma NewNeverPanics(polls: seq<Poll>)
    ensures !Run(New(), polls).Panic?
    ensures Run(New(), polls).Continue? ==> Run(New(), polls).app.selected < 3
  {
  }

  /** Down, then Up, puts the selection back where it was. */
  lemma DownThenUpRestoresSelection(a: App)
    requires Valid(a)
    ensures var r1 := Step(a, Ready(Key(Press, Down)));
            r1.Continue? &&
            var r2 := Step(r1.app, Ready(Key(Press, Up)));
            r2.Continue? && r2.app.selected == a.selected
  {
    WrapIndexInverse(a.selected, |a.servers| - 1, -1);
  }

  /** Idle ticks bring an over-long log back within the limit, one entry per
      tick, keeping its newest entries. */
  lemma {:induction false} IdleTicksRestoreBound(a: App, n: nat)
    requires n + LogLimit >= |a.logs|
    decreases n
    ensures var r := Run(a, seq(n, _ => Idle));
            r.Continue? && |r.app.logs| <= LogLimit && |r.app.logs| <= |a.logs|
            && r.app.logs == a.logs[|a.logs| - |r.app.logs|..]
  {
    var polls: seq<Poll> := seq(n, _ => Idle);
    if n == 0 {
      assert a.logs[|a.logs| - |a.logs|..] == a.logs;
    } else {
      var b := OnTick(a);
      assert polls[0] == Idle;
      assert polls[1..] == seq(n - 1, _ => Idle);
      IdleTicksRestoreBound(b, n - 1);
      var r := Run(b, seq(n - 1, _ => Idle));
      if |a.logs| > LogLimit {
        assert b.logs == a.logs[1..];
        assert r.app.logs == a.logs[1..][|b.logs| - |r.app.logs|..];
      }
    }
  }

  /** Each key press adds two entries and a tick removes at most one, so a
      key per iteration grows a full log by one entry each time. */
  lemma KeyPressOutgrowsTrim(a: App)
    requires Valid(a) && |a.logs| > LogLimit
    ensures var r := Step(a, Ready(Key(Press, Down)));
            r.Continue? && |r.app.logs| == |a.logs| + 1
  {
  }
}
